=== FILE: README.md ===
# EV adoption forecast loop — Dafny model

This project models the autoregressive forecasting core of the county EV-adoption
prototype (`prototype_code.py`). For one county, the script keeps two trailing buffers:
the last six monthly EV totals (`historical_ev`) and their running totals
(`cumulative_ev`). It then repeats one step for 36 months:

- advance the calendar month and the county time index `months_since_start`;
- derive the nine-column feature row the regressor was trained on (three lags, their mean,
  two zero-guarded percent changes, and a six-point least-squares growth slope);
- ask the regressor for the next month's total;
- push that total into both buffers;
- emit a forecast record.

Afterwards, the historical rows and the forecast rows are concatenated, sorted by month,
and given a "Cumulative EVs" running total.

The script does this twice:

- for one named county (lines 289-399), which stops the script when the county is unknown
  or has no rows;
- in a batch over the first five counties (lines 417-483), which skips a county that is
  unknown or has fewer than six rows.

Modules, one per file:

| module | file | covers |
|---|---|---|
| `Wrappers` | wrappers.dfy | `Option` and `Result` |
| `Series` | series.dfy | `Sum`, `PrefixSums` (`np.cumsum`), `LastN` (`[-n:]`) |
| `Calendar` | calendar.dfy | months and the `numeric_date` index `year * 12 + month` |
| `Sorting` | sorting.dfy | ordering by an integer key (`sort_values`) |
| `FeatureWindow` | window.dfy | the two bounded buffers: initialisation and push |
| `FeatureDeriver` | features.dfy | the feature row derived from a window, with the closed-form slope |
| `TrainingFeatures` | training.dfy | the training-time feature columns of lines 137-165, set against inference |
| `ForecastStepper` | stepper.dfy | one forecast step, the 36-step run, and the batch loop as a method |
| `SeriesAssembler` | assembler.dfy | concatenation, ordering and the "Cumulative EVs" column |
| `ForecastRunner` | runner.dfy | county selection, the single-county driver, the batch driver |

Modelling choices:

- **Counts** are exact `real`s.
- **The regressor** is a parameter `predict: Features -> real` of every operation that
  forecasts.
- **The county encoder** is a parameter `codes: map<string, int>`. A name absent from the
  map is the encoder's `ValueError`.
- **The slope.** `np.polyfit(range(6), y, 1)[0]` is replaced by its closed form,
  Σ (i − 2.5)·yᵢ / 17.5 over i = 0..5. `FeatureDeriver.IsLeastSquaresLine` states what the
  closed form must satisfy, independently: the normal equations of least squares for the
  points (i, yᵢ), written as recursive sums.
- **The time index** of training row t is t (`groupby().cumcount()`, line 133). The
  forecast starts from the county's largest time index (lines 310 and 429).

Behaviour of the script worth noting:

- **Minimum history.** The batch loop skips counties with fewer than six rows (line 427),
  not fewer than three.
- **The single-county driver.** It has no guard for one or two rows. Its first step then
  fails at `historical_ev[-3]` (line 326), which `ForecastRunner.ForecastSingle` models
  as the error `TooFewRows`.
- **`ev_total_pct_change_3` at inference** is (lag1 − lag3) / lag3 (lines 329 and 442).
  Lag3 lies two months before lag1, so this is a two-period change. Training uses
  `pct_change(periods=3)` of the current row (line 149). `TrainingFeatures.InferenceAgainstTraining`
  states the exact relation rather than a parity that does not hold.

## Model

| member | source | states |
|---|---|---|
| Series.CumulativeSum | prototype_code.py:308 | `np.cumsum`: the result has the input's length, entry i is the sum of entries 0..i, and the result is the running-total sequence `PrefixSums` used everywhere else |
| Series.PrefixSumsRecurrence | prototype_code.py:399 | the running totals start at the first count and each later total is the previous total plus the count at its position |
| Series.LastN | prototype_code.py:307 | `[-n:]` keeps n entries, or all of them when there are fewer |
| Series.LastNIsSuffix | prototype_code.py:307 | the entries `[-n:]` keeps are the newest ones of the series, in their original order |
| Series.PrefixSumsAt | prototype_code.py:308 | `np.cumsum`: entry i of the running totals is the sum of entries 0..i |
| Series.LastNConcat | prototype_code.py:354-356 | trimming to the last n before appending more entries and trimming again gives the same as trimming once at the end |
| Series.SumConcat | prototype_code.py:399 | the total of two consecutive parts is the sum of their totals |
| Series.PrefixSumsRestart | prototype_code.py:308 | a running total of a whole series equals the total before position j plus the running total restarted at j |
| Calendar.IndexComponents | prototype_code.py:123 | the numeric month index `year * 12 + month` determines the year and the month: both are read back from it by division and remainder |
| Calendar.FromIndex | prototype_code.py:123 | every numeric month index `year * 12 + month` names a month |
| Calendar.IndexInjective | prototype_code.py:123 | distinct months have distinct numeric indices |
| Calendar.NextMonth | prototype_code.py:321-323 | one `DateOffset(months=1)` raises the numeric index by exactly one; December rolls into January of the next year, and other months keep the year |
| Calendar.AddMonths | prototype_code.py:462 | adding k months raises the numeric index by exactly k |
| Calendar.AddMonthsStep | prototype_code.py:321-323 | k single-month steps followed by one more reach the same month as adding k + 1 months at once |
| Sorting.InsertBy | prototype_code.py:396 | inserting into an ordered frame keeps every row, adds one, and keeps the order |
| Sorting.SortBy | prototype_code.py:396 | `sort_values` returns a permutation of its input that is ordered by the key |
| Sorting.SortBySorted | prototype_code.py:396 | sorting a frame that is already ordered leaves it unchanged |
| FeatureWindow.Init | prototype_code.py:307-308 | the window holds the last min(6, n) counts, in order, and its running totals are the prefix sums restarted at the window start; the buffers are aligned |
| FeatureWindow.EvictKeepsNewest | prototype_code.py:355-356 | `pop(0)` on an overfull buffer keeps the newest entries in order, so a buffer of seven is cut back to its last six |
| FeatureWindow.Push | prototype_code.py:354-360 | after a push each buffer grows by one up to six and then stays at six |
| FeatureWindow.PushIsFifo | prototype_code.py:354-360 | after a push each buffer is the last six of the old buffer followed by the new entry; the new running total is the old newest total plus the prediction |
| FeatureWindow.PushAligned | prototype_code.py:354-360 | each running total exceeds its predecessor by the count at its position, and pushing keeps that so |
| FeatureWindow.InitRepresents | prototype_code.py:307-308 | a fresh window is the trailing window of the counts it holds |
| FeatureWindow.PushRepresents | prototype_code.py:470-475 | if the window is the trailing window of a series s, then after pushing x it is the trailing window of s followed by x |
| FeatureWindow.RepresentedTail | prototype_code.py:358 | the newest running total of a window over s is the total of all of s |
| FeatureWindow.RepresentsAligned | prototype_code.py:308 | a window over a series has aligned buffers of at most six entries |
| FeatureDeriver.PctChange | prototype_code.py:328-329 | the change is 0 when the older value is 0, and otherwise times the older value equals newer − older |
| FeatureDeriver.GrowthSlope | prototype_code.py:332-333 | the slope is 0 while fewer than six running totals are present |
| FeatureDeriver.GrowthSlopeFits | prototype_code.py:332-333 | with six or more running totals, the slope is the least-squares slope of the last six against 0..5 |
| FeatureDeriver.Derive | prototype_code.py:326-346 | the time index and county code are passed through; lag1, lag2 and lag3 are the newest three counts, newest first; the mean is their mean; both percent changes are zero-guarded; the slope is 0 below six totals |
| FeatureDeriver.DeriveSlopeFits | prototype_code.py:332-333 | the slope feature of a window with six totals is the least-squares slope of those totals |
| FeatureDeriver.SlopeIsLeastSquares | prototype_code.py:333 | the closed-form slope and intercept satisfy the normal equations of least squares |
| FeatureDeriver.LeastSquaresLineUnique | prototype_code.py:333 | any line that satisfies the normal equations has the closed-form slope and intercept |
| FeatureDeriver.SlopeOfExactLine | prototype_code.py:333 | points lying on a line a·i + b give slope a, so running totals 0, 1, 2, 3, 4, 5 give slope 1 |
| FeatureDeriver.SlopeShiftInvariant | prototype_code.py:156-160 | adding one constant to all six points leaves the slope unchanged |
| FeatureDeriver.AlignedOffset | prototype_code.py:358 | in aligned buffers each running total is a fixed offset plus the running total of the window's counts |
| FeatureDeriver.SlopeFromWindowValues | prototype_code.py:332-333 | with six aligned entries, the slope depends only on the six counts: it is the slope of their running totals restarted at zero |
| TrainingFeatures.Shifted | prototype_code.py:137-138 | `shift(k)` at row t is present exactly from row k on, and then is the count k rows earlier |
| TrainingFeatures.ShiftColumn | prototype_code.py:137-138 | the whole `shift(k)` column: as long as the series, entry t present exactly when t ≥ k, holding the count k rows earlier |
| TrainingFeatures.RollingMean3 | prototype_code.py:141-142 | `rolling(3).mean()` at row t is present exactly when rows t − 2, t − 1 and t are present, and three times it is their sum |
| TrainingFeatures.PctChangeAt | prototype_code.py:145-153 | `pct_change(periods=p)` after the cleanup is 0 before row p and where the older count is 0, and otherwise times the older count equals the difference |
| TrainingFeatures.GrowthSlopeAt | prototype_code.py:156-160 | the rolling slope is present exactly from the sixth row on, and then it is the slope of the least-squares line through the last six running totals |
| TrainingFeatures.GrowthSlopeAtFits | prototype_code.py:156-160 | from the sixth row on, the rolling slope is the least-squares slope of the six running totals ending at the row |
| TrainingFeatures.TrainingRowFields | prototype_code.py:133-160 | a kept training row holds its position as time index, the county code, the three previous counts newest first, their mean, the zero-guarded one- and three-period changes ending at the row, and the slope of the six running totals ending at it |
| TrainingFeatures.PriorRollingMeanIsLagMean | prototype_code.py:141-142 | `shift(1).rolling(3).mean()` at row t is the mean of the counts at t − 1, t − 2 and t − 3, and is missing exactly for the first three rows |
| TrainingFeatures.TrainingRowKept | prototype_code.py:137-165 | among the feature columns, a value is missing exactly before the sixth row, so the feature row exists exactly from the sixth row on |
| TrainingFeatures.PctChangeAtIsGuarded | prototype_code.py:145-153 | training `pct_change` with infinities and NaN replaced by 0 equals the zero-guarded change `PctChange` |
| TrainingFeatures.CumulativeRestartKeepsSlope | prototype_code.py:156-160 | the slope over the county-wide running totals equals the slope over totals restarted at the window start |
| TrainingFeatures.InferenceAgainstTraining | prototype_code.py:137-160 | features derived from the six rows before t have training row t's time index, code, lags and mean; their one-period change and slope are those of training row t − 1; their three-lag change is the two-period change at t − 1 |
| ForecastStepper.Step | prototype_code.py:320-369 | a step advances the month and the time index by exactly one, records the model's prediction for the features of the current window, and pushes that prediction into the window |
| ForecastStepper.Run | prototype_code.py:320 | a run of n steps emits n records and advances the month and the time index by n |
| ForecastStepper.RunSchedule | prototype_code.py:321-324 | record k carries time index start + k + 1 and the month k + 1 months after the start |
| ForecastStepper.RunEndMonth | prototype_code.py:369 | after n steps the newest month is the start month plus n months |
| ForecastStepper.RunRepresents | prototype_code.py:354-360 | after a run the window is the trailing window of the starting series followed by every prediction made |
| ForecastStepper.RunPrefix | prototype_code.py:320 | the first k records of a longer run are the records of a k-step run, and record k is the step from that run's final state |
| ForecastStepper.TrailingWindow | prototype_code.py:354-360 | the window the loop holds after a series has passed through it: min(n, 6) aligned entries for a series of n counts, which are the newest counts of the series in order, and whose newest running total is the total of the whole series |
| ForecastStepper.RunIsAutoregressive | prototype_code.py:326-350 | forecast k is the model applied to the features of the trailing window of the start series followed by forecasts 0..k−1, at time index start + k + 1 |
| ForecastStepper.RunSnoc | prototype_code.py:437 | an (n+1)-step run is an n-step run followed by one step |
| ForecastStepper.ForecastLoop | prototype_code.py:437-475 | the batch loop, which dates record k as the last historical month plus k + 1 months, returns exactly the records and final state of a run of the same length |
| SeriesAssembler.RunningTotals | prototype_code.py:399 | the "Cumulative EVs" column keeps the rows, starts at the first count and grows by each row's count |
| SeriesAssembler.RunningTotalIsPrefixSum | prototype_code.py:399 | "Cumulative EVs" at position i is the sum of the counts at positions 0..i |
| SeriesAssembler.RunningTotalFinal | prototype_code.py:399 | the last running total is the total of all counts |
| SeriesAssembler.Combine | prototype_code.py:377-399 | the combined frame holds exactly the historical and forecast rows, ordered by month, and each row's "Cumulative EVs" is the sum of the counts up to and including it in that order |
| SeriesAssembler.CombineInOrder | prototype_code.py:377-399 | when history followed by forecasts is already in month order, the combined frame keeps that order and ends at the historical total plus the forecast total |
| ForecastRunner.CountyRows | prototype_code.py:301 | the county filter keeps every row with the county's code, as often as it occurs, and no other |
| ForecastRunner.CountyHistory | prototype_code.py:301 | the county's rows ordered by `numeric_date` |
| ForecastRunner.MaxTimeIndex | prototype_code.py:310 | the starting time index is the largest index among the county's rows |
| ForecastRunner.StartState | prototype_code.py:307-317 | the start state can step, its window is the trailing window of the last six counts, its month is the newest row's, and its time index is the county's maximum |
| ForecastRunner.HistoricalPoints | prototype_code.py:312-314 | the historical rows keep their counts, months and `months_since_start` and are marked Historical |
| ForecastRunner.ForecastPoints | prototype_code.py:362-367 | the forecast rows carry the predictions, the loop's months and the loop's `months_since_start`, and are marked Forecast |
| ForecastRunner.OffsetDatedPoints | prototype_code.py:462-469 | batch forecast row k is dated k + 1 months after the newest historical month and carries forecast k's predicted count and `months_since_start`, marked Forecast |
| ForecastRunner.OffsetDatesAgree | prototype_code.py:462 | dating by offset from the newest historical month gives the same rows as the single-county month-by-month advance |
| ForecastRunner.AppendAfterSorted | prototype_code.py:396 | ordered history followed by the consecutive months after its newest month is ordered |
| ForecastRunner.HistoricalPointsOrdered | prototype_code.py:301 | a month-ordered history yields ordered historical rows, none later than the newest |
| ForecastRunner.RunFollowsHistory | prototype_code.py:396 | history followed by the forecasts of a run started at its newest month is already in month order |
| ForecastRunner.CountyTableInOrder | prototype_code.py:377-399 | a county's combined frame is its history followed by its forecasts, and its final "Cumulative EVs" is the historical total plus all forecasts |
| ForecastRunner.ForecastSingle | prototype_code.py:293-399 | an unknown county, a county with no rows, and one with fewer than three rows give distinct errors; otherwise the 36 records of the loop run from the county's history, and a frame that is that history followed by the forecast rows in month order, in which every row's "Cumulative EVs" is the sum of the counts up to it, the last being the historical total plus every forecast |
| ForecastRunner.CountyForecast | prototype_code.py:307-399 | once a county's rows are found, the records are the 36-step run from its start state, and the frame is its history followed by those records in month order, in which every row's "Cumulative EVs" is the sum of the counts up to it, the last being the historical total plus every forecast |
| ForecastRunner.BatchForecast | prototype_code.py:427-480 | the batch frame of a county with enough rows is its history followed by the 36 forecast rows in month order, every row's "Cumulative EVs" is the sum of the counts up to it, and the last is the historical total plus every forecast |
| ForecastRunner.RunCounty | prototype_code.py:423-480 | a county is skipped exactly when its name is unknown or it has fewer than six rows; otherwise its frame holds its history plus 36 rows |
| ForecastRunner.RunCountyTable | prototype_code.py:423-480 | a forecast county's batch frame is its history followed by the 36 forecast rows of the loop run, in month order, every row's "Cumulative EVs" is the sum of the counts up to it, and the last is the historical total plus every forecast |
| ForecastRunner.BatchMatchesSingle | prototype_code.py:462 | month by month, a county's batch frame equals its single-county frame: dating forecast k as the newest month plus k + 1 months gives the same months as advancing one month per step |
| ForecastRunner.RunBatch | prototype_code.py:420-423 | the batch covers the first five counties, and each outcome depends only on that county |
| ForecastRunner.ForecastedPositions | prototype_code.py:423-480 | the positions of the forecast counties, increasing, each within the batch, and every forecast county among them |
| ForecastRunner.Collected | prototype_code.py:480 | `all_combined` holds one frame per forecast county, in county order: its j-th frame is the frame of the j-th forecast county |

## Left out

- Loading, cleaning and outlier capping of the CSV, `describe`, and every print,
  progress bar, plot and saved figure: these are I/O and presentation.
- Training the random forest, the parameter search, the metrics, and saving and loading
  the model: the regressor is the parameter `predict`.
- `LabelEncoder` internals: the encoder is a map from county name to code.
- The `slope_history` buffer (lines 445-447): it is filled but never read.
- The second forecast pass after the batch `try` block (lines 485-559): the model runs
  the batch once.
- Floating-point rounding, and the infinities and NaN of lines 152-153 beyond the
  zero-denominator guard: counts are exact reals.
- `df['County'].dropna().unique()`: the batch takes the county list as given.
- Sorting.SortBy: an insertion sort, where pandas sorts with an unstable quicksort.
  The two differ only in the order of rows that share a month. The contract states only
  what holds for both: a permutation of the input that is ordered by month.
- FeatureWindow.Push: its contract states only the buffer lengths. The contents are
  stated by `FeatureWindow.PushIsFifo` and `FeatureWindow.PushRepresents`, which keeps the
  stepping proofs small.
- FeatureDeriver.GrowthSlope: its contract states the slope only below six totals. The
  least-squares property is stated separately by `FeatureDeriver.GrowthSlopeFits`.
- FeatureDeriver.Derive: its contract states the slope only below six totals. The
  least-squares property is stated separately by `FeatureDeriver.DeriveSlopeFits`.
- ForecastRunner.RunCounty: in the batch every county name comes from the `County`
  column the encoder was fitted on (lines 127 and 420), so the encoder's `ValueError` does
  not arise there. The model still lets the code table miss a name and then skips that
  county. A county with six or more rows cannot fail at `historical_ev[-3]`. Any other
  exception, such as a failing `predict`, is not modelled.
- ForecastRunner.BatchMatchesSingle: equality holds month by month. Dates carry no day of
  month in the model. The single-county driver resets every date to the first of the
  month (lines 314, 321 and 375). The batch loop keeps the original `Date` column
  (line 430) and dates forecast k as the latest historical `Date` plus
  `DateOffset(months=k + 1)` (line 462), which keeps that day and clamps it at month end. The batch frame also carries a `County` column
  that the model leaves out.
- TrainingFeatures.TrainingRowKept: `dropna` looks at every column of the frame, not only
  the feature columns. The model assumes the other columns have no missing values.
- FeatureDeriver.Slope6: the closed form has no contract of its own; what it means is
  stated by `FeatureDeriver.SlopeIsLeastSquares` and `FeatureDeriver.LeastSquaresLineUnique`
  (it is the one least-squares slope). This keeps the stepping proofs small.
- Series.LastN: the contents of the kept entries are stated by `Series.LastNIsSuffix`,
  not by the function's contract, which keeps the stepping proofs small.
- TrainingFeatures.TrainingRow: its contents are stated by
  `TrainingFeatures.TrainingRowFields` and `TrainingFeatures.TrainingRowKept`.
- ForecastRunner.RunCounty: the contents of a forecast county's frame are stated by
  `ForecastRunner.RunCountyTable`, not by the function's contract, which keeps the proof
  of the contract small.

=== FILE: assembler.dfy ===
/** The combined county table: historical rows and forecast rows in one frame, ordered by
    month, with the running total of EV counts ("Cumulative EVs"). */
module SeriesAssembler {
  import opened Series
  import opened Sorting
  import opened Calendar

  /** The `Source` column. */
  datatype Source = Historical | Forecast

  /** One row of the concatenated frame before the running total is added. */
  datatype Point = Point(date: YearMonth, value: real, monthsSinceStart: int, source: Source)

  /** One row of the combined frame with its "Cumulative EVs" entry. */
  datatype CombinedRow = CombinedRow(point: Point, cumulative: real)

  /** Rows are ordered by month. */
  function MonthKey(p: Point): int
  {
    Index(p.date)
  }

  /** The EV-count column of a frame. */
  function Values(ps: seq<Point>): (vs: seq<real>)
    ensures |vs| == |ps|
    ensures forall i :: 0 <= i < |ps| ==> vs[i] == ps[i].value
  {
    seq(|ps|, i requires 0 <= i < |ps| => ps[i].value)
  }

  /** The combined frame without its running-total column. */
  function Points(rows: seq<CombinedRow>): (ps: seq<Point>)
    ensures |ps| == |rows|
    ensures forall i :: 0 <= i < |rows| ==> ps[i] == rows[i].point
  {
    seq(|rows|, i requires 0 <= i < |rows| => rows[i].point)
  }

  /** Pairs each row of a frame with the total at the same position. */
  function Attach(ps: seq<Point>, totals: seq<real>): (rows: seq<CombinedRow>)
    requires |totals| == |ps|
    ensures Points(rows) == ps
    ensures forall i :: 0 <= i < |rows| ==> rows[i].cumulative == totals[i]
  {
    seq(|ps|, i requires 0 <= i < |ps| => CombinedRow(ps[i], totals[i]))
  }

  /** Adds the "Cumulative EVs" column to a frame: each row's total is the previous
      row's total plus its own count. */
  function RunningTotals(ps: seq<Point>): (rows: seq<CombinedRow>)
    ensures Points(rows) == ps
    ensures |rows| > 0 ==> rows[0].cumulative == rows[0].point.value
    ensures forall i :: 1 <= i < |rows| ==> rows[i].cumulative == rows[i - 1].cumulative + rows[i].point.value
  {
    PrefixSumsRecurrence(Values(ps));
    Attach(ps, PrefixSums(Values(ps)))
  }

  /** Every row's "Cumulative EVs" is the sum of the counts up to and including it. */
  ghost predicate HasRunningTotals(rows: seq<CombinedRow>)
  {
    forall i :: 0 <= i < |rows| ==> rows[i].cumulative == Sum(Values(Points(rows))[..i + 1])
  }

  /** Entry i of the running-total column is the sum of the counts at positions 0..i. */
  lemma {:induction false} RunningTotalIsPrefixSum(ps: seq<Point>, i: nat)
    requires i < |ps|
    ensures RunningTotals(ps)[i].cumulative == Sum(Values(ps)[..i + 1])
  {
    var rows := RunningTotals(ps);
    var vs := Values(ps);
    if i == 0 {
      assert vs[..1] == [] + [vs[0]];
      SumAppend([], vs[0]);
    } else {
      RunningTotalIsPrefixSum(ps, i - 1);
      assert vs[..i + 1] == vs[..i] + [vs[i]];
      SumAppend(vs[..i], vs[i]);
    }
  }

  /** Concatenates history and forecasts, sorts by month, and adds the running total of
      the counts in that order: every row's total is the sum of the counts up to and
      including it in month order. */
  function Combine(hist: seq<Point>, fc: seq<Point>): (rows: seq<CombinedRow>)
    ensures |rows| == |hist| + |fc|
    ensures multiset(Points(rows)) == multiset(hist + fc)
    ensures SortedBy(Points(rows), MonthKey)
    ensures HasRunningTotals(rows)
  {
    var ps := SortBy(hist + fc, MonthKey);
    var rows := RunningTotals(ps);
    assert HasRunningTotals(rows) by {
      forall i | 0 <= i < |rows|
        ensures rows[i].cumulative == Sum(Values(Points(rows))[..i + 1])
      {
        RunningTotalIsPrefixSum(ps, i);
      }
    }
    rows
  }

  /** The last running total is the sum of the whole count column. */
  lemma RunningTotalFinal(ps: seq<Point>)
    requires |ps| > 0
    ensures RunningTotals(ps)[|ps| - 1].cumulative == Sum(Values(ps))
  {
    RunningTotalIsPrefixSum(ps, |ps| - 1);
    assert Values(ps)[..|ps|] == Values(ps);
  }

  lemma SumOfValuesConcat(a: seq<Point>, b: seq<Point>)
    ensures Sum(Values(a + b)) == Sum(Values(a)) + Sum(Values(b))
  {
    assert Values(a + b) == Values(a) + Values(b);
    SumConcat(Values(a), Values(b));
  }

  /** When history followed by forecasts is already in month order, the combined frame
      keeps that order and its final running total is the historical total plus the
      forecast total. */
  lemma CombineInOrder(hist: seq<Point>, fc: seq<Point>)
    requires SortedBy(hist + fc, MonthKey)
    requires |hist| + |fc| > 0
    ensures Points(Combine(hist, fc)) == hist + fc
    ensures Combine(hist, fc)[|hist| + |fc| - 1].cumulative == Sum(Values(hist)) + Sum(Values(fc))
  {
    var all := hist + fc;
    SortBySorted(all, MonthKey);
    assert Combine(hist, fc) == RunningTotals(all);
    RunningTotalFinal(all);
    SumOfValuesConcat(hist, fc);
  }
}

=== FILE: calendar.dfy ===
/** Calendar months and the script's numeric month index `year * 12 + month`. */
module Calendar {

  type MonthOfYear = m: int | 1 <= m <= 12 witness 1

  /** A calendar month; the day of month is not part of the model. */
  datatype YearMonth = YearMonth(year: int, month: MonthOfYear)

  /** The `numeric_date` column: one step per calendar month. */
  function Index(d: YearMonth): int
  {
    d.year * 12 + d.month
  }

  /** The numeric index encodes the year and the month: both can be read back from it. */
  lemma IndexComponents(d: YearMonth)
    ensures (Index(d) - 1) / 12 == d.year
    ensures (Index(d) - 1) % 12 + 1 == d.month
  {
  }

  /** The month with a given numeric index. */
  function FromIndex(n: int): (d: YearMonth)
    ensures Index(d) == n
  {
    YearMonth((n - 1) / 12, (n - 1) % 12 + 1)
  }

  /** Distinct months have distinct indices. */
  lemma IndexInjective(a: YearMonth, b: YearMonth)
    requires Index(a) == Index(b)
    ensures a == b
  {
  }

  /** The month after `d`, as `pd.to_datetime(year*100+month, format='%Y%m') + DateOffset(months=1)`. */
  function NextMonth(d: YearMonth): (r: YearMonth)
    ensures Index(r) == Index(d) + 1
    ensures d.month < 12 ==> r.year == d.year
    ensures d.month == 12 ==> r.year == d.year + 1 && r.month == 1
  {
    if d.month == 12 then YearMonth(d.year + 1, 1) else YearMonth(d.year, d.month + 1)
  }

  /** `d + DateOffset(months=k)` on first-of-month dates. */
  function AddMonths(d: YearMonth, k: int): (r: YearMonth)
    ensures Index(r) == Index(d) + k
  {
    FromIndex(Index(d) + k)
  }

  /** Adding months one at a time reaches the same month as adding them at once. */
  lemma AddMonthsStep(d: YearMonth, k: int)
    ensures NextMonth(AddMonths(d, k)) == AddMonths(d, k + 1)
  {
    IndexInjective(NextMonth(AddMonths(d, k)), AddMonths(d, k + 1));
  }

  lemma AddZeroMonths(d: YearMonth)
    ensures AddMonths(d, 0) == d
  {
    IndexInjective(AddMonths(d, 0), d);
  }
}

=== FILE: features.dfy ===
/** The nine-column input row the regressor was trained on, derived from a county's
    trailing window at each forecast step. */
module FeatureDeriver {
  import opened Series
  import opened FeatureWindow

  /** One model input row, fields in the order of the training feature list. */
  datatype Features = Features(
    monthsSinceStart: int,
    countyCode: int,
    lag1: real,
    lag2: real,
    lag3: real,
    rollMean3: real,
    pctChange1: real,
    pctChange3: real,
    growthSlope: real)

  /** Number of running totals the growth slope is fitted through. */
  const SlopePoints: nat := 6

  /** Relative change from `older` to `newer`, or 0 when `older` is 0. */
  function PctChange(newer: real, older: real): (r: real)
    ensures older == 0.0 ==> r == 0.0
    ensures older != 0.0 ==> r * older == newer - older
  {
    if older != 0.0 then (newer - older) / older else 0.0
  }

  /** Closed form of `np.polyfit(range(6), ys, 1)[0]`: the sum of (i - 2.5) * ys[i]
      over i = 0..5, divided by 17.5. */
  function Slope6(ys: seq<real>): real
    requires |ys| == SlopePoints
  {
    (-2.5 * ys[0] - 1.5 * ys[1] - 0.5 * ys[2] + 0.5 * ys[3] + 1.5 * ys[4] + 2.5 * ys[5]) / 17.5
  }

  /** Intercept of the same fitted line: the mean of ys less the slope times 2.5. */
  function Intercept6(ys: seq<real>): real
    requires |ys| == SlopePoints
  {
    (ys[0] + ys[1] + ys[2] + ys[3] + ys[4] + ys[5]) / 6.0 - 2.5 * Slope6(ys)
  }

  /** Sum over the first n points (i, ys[i]) of the residual ys[i] - (a * i + b). */
  function ResidualSum(ys: seq<real>, a: real, b: real, n: nat): real
    requires n <= |ys|
  {
    if n == 0 then 0.0
    else ResidualSum(ys, a, b, n - 1) + (ys[n - 1] - (a * (n - 1) as real + b))
  }

  /** Sum over the first n points of i times the residual at i. */
  function MomentSum(ys: seq<real>, a: real, b: real, n: nat): real
    requires n <= |ys|
  {
    if n == 0 then 0.0
    else MomentSum(ys, a, b, n - 1) + (n - 1) as real * (ys[n - 1] - (a * (n - 1) as real + b))
  }

  /** The line a * x + b satisfies the normal equations of least squares for the points
      (i, ys[i]): residuals sum to zero and are uncorrelated with i. */
  ghost predicate IsLeastSquaresLine(ys: seq<real>, a: real, b: real)
  {
    ResidualSum(ys, a, b, |ys|) == 0.0 && MomentSum(ys, a, b, |ys|) == 0.0
  }

  /** `recent_cumulative = cumulative_ev[-6:]`; the slope is fitted only when six points
      are present and is 0 otherwise. The last six entries number six exactly when the
      buffer holds at least six. */
  function GrowthSlope(cumulative: seq<real>): (g: real)
    ensures |cumulative| < SlopePoints ==> g == 0.0
  {
    var recent := LastN(cumulative, SlopePoints);
    if |recent| == SlopePoints then
      Slope6(recent)
    else
      0.0
  }

  /** Once six running totals are present, the growth slope is the least-squares slope of
      the last six of them against 0..5. */
  lemma GrowthSlopeFits(cumulative: seq<real>)
    requires |cumulative| >= SlopePoints
    ensures
      var recent := cumulative[|cumulative| - SlopePoints..];
      IsLeastSquaresLine(recent, GrowthSlope(cumulative), Intercept6(recent))
  {
    SlopeIsLeastSquares(cumulative[|cumulative| - SlopePoints..]);
  }

  /** Features for the next month, read from the window newest first; the window itself
      is left as it was. */
  function Derive(w: Window, monthsSinceStart: int, countyCode: int): (f: Features)
    requires |w.values| >= 3
    ensures f.monthsSinceStart == monthsSinceStart && f.countyCode == countyCode
    ensures f.lag1 == w.values[|w.values| - 1]
    ensures f.lag2 == w.values[|w.values| - 2]
    ensures f.lag3 == w.values[|w.values| - 3]
    ensures 3.0 * f.rollMean3 == f.lag1 + f.lag2 + f.lag3
    ensures f.lag2 == 0.0 ==> f.pctChange1 == 0.0
    ensures f.lag2 != 0.0 ==> f.pctChange1 * f.lag2 == f.lag1 - f.lag2
    ensures f.lag3 == 0.0 ==> f.pctChange3 == 0.0
    ensures f.lag3 != 0.0 ==> f.pctChange3 * f.lag3 == f.lag1 - f.lag3
    ensures |w.cumulative| < SlopePoints ==> f.growthSlope == 0.0
  {
    var n := |w.values|;
    var lag1, lag2, lag3 := w.values[n - 1], w.values[n - 2], w.values[n - 3];
    Features(
      monthsSinceStart,
      countyCode,
      lag1,
      lag2,
      lag3,
      (lag1 + lag2 + lag3) / 3.0,
      PctChange(lag1, lag2),
      PctChange(lag1, lag3),
      GrowthSlope(w.cumulative))
  }

  /** The slope feature of a window with six or more running totals is the least-squares
      slope of the last six. */
  lemma DeriveSlopeFits(w: Window, monthsSinceStart: int, countyCode: int)
    requires |w.values| >= 3
    requires |w.cumulative| >= SlopePoints
    ensures
      var recent := w.cumulative[|w.cumulative| - SlopePoints..];
      IsLeastSquaresLine(recent, Derive(w, monthsSinceStart, countyCode).growthSlope, Intercept6(recent))
  {
    GrowthSlopeFits(w.cumulative);
  }

  lemma ResidualSumOfSix(ys: seq<real>, a: real, b: real)
    requires |ys| == SlopePoints
    ensures ResidualSum(ys, a, b, 6)
         == ys[0] + ys[1] + ys[2] + ys[3] + ys[4] + ys[5] - 15.0 * a - 6.0 * b
  {
    assert ResidualSum(ys, a, b, 1) == ys[0] - b;
    assert ResidualSum(ys, a, b, 2) == ys[0] + ys[1] - a - 2.0 * b;
    assert ResidualSum(ys, a, b, 3) == ys[0] + ys[1] + ys[2] - 3.0 * a - 3.0 * b;
    assert ResidualSum(ys, a, b, 4) == ys[0] + ys[1] + ys[2] + ys[3] - 6.0 * a - 4.0 * b;
    assert ResidualSum(ys, a, b, 5) == ys[0] + ys[1] + ys[2] + ys[3] + ys[4] - 10.0 * a - 5.0 * b;
  }

  lemma MomentSumOfSix(ys: seq<real>, a: real, b: real)
    requires |ys| == SlopePoints
    ensures MomentSum(ys, a, b, 6)
         == ys[1] + 2.0 * ys[2] + 3.0 * ys[3] + 4.0 * ys[4] + 5.0 * ys[5] - 55.0 * a - 15.0 * b
  {
    assert MomentSum(ys, a, b, 1) == 0.0;
    assert MomentSum(ys, a, b, 2) == ys[1] - a - b;
    assert MomentSum(ys, a, b, 3) == ys[1] + 2.0 * ys[2] - 5.0 * a - 3.0 * b;
    assert MomentSum(ys, a, b, 4) == ys[1] + 2.0 * ys[2] + 3.0 * ys[3] - 14.0 * a - 6.0 * b;
    assert MomentSum(ys, a, b, 5)
        == ys[1] + 2.0 * ys[2] + 3.0 * ys[3] + 4.0 * ys[4] - 30.0 * a - 10.0 * b;
  }

  /** The closed-form slope and intercept solve the least-squares normal equations. */
  lemma SlopeIsLeastSquares(ys: seq<real>)
    requires |ys| == SlopePoints
    ensures IsLeastSquaresLine(ys, Slope6(ys), Intercept6(ys))
  {
    ResidualSumOfSix(ys, Slope6(ys), Intercept6(ys));
    MomentSumOfSix(ys, Slope6(ys), Intercept6(ys));
  }

  /** Any line solving the normal equations has the closed-form slope and intercept, so the
      closed form is the unique least-squares fit. */
  lemma LeastSquaresLineUnique(ys: seq<real>, a: real, b: real)
    requires |ys| == SlopePoints
    requires IsLeastSquaresLine(ys, a, b)
    ensures a == Slope6(ys)
    ensures b == Intercept6(ys)
  {
    ResidualSumOfSix(ys, a, b);
    MomentSumOfSix(ys, a, b);
  }

  /** Points lying exactly on a line give back that line's slope; the running totals
      0, 1, 2, 3, 4, 5 have slope 1. */
  lemma SlopeOfExactLine(ys: seq<real>, a: real, b: real)
    requires |ys| == SlopePoints
    requires forall i :: 0 <= i < SlopePoints ==> ys[i] == a * i as real + b
    ensures Slope6(ys) == a
  {
    assert ys[0] == b && ys[1] == a + b && ys[2] == 2.0 * a + b;
    assert ys[3] == 3.0 * a + b && ys[4] == 4.0 * a + b && ys[5] == 5.0 * a + b;
  }

  /** Adding the same constant to every point leaves the slope unchanged. */
  lemma SlopeShiftInvariant(ys: seq<real>, zs: seq<real>, c: real)
    requires |ys| == SlopePoints && |zs| == SlopePoints
    requires forall i :: 0 <= i < SlopePoints ==> zs[i] == ys[i] + c
    ensures Slope6(zs) == Slope6(ys)
  {
    assert zs[0] == ys[0] + c && zs[1] == ys[1] + c && zs[2] == ys[2] + c;
    assert zs[3] == ys[3] + c && zs[4] == ys[4] + c && zs[5] == ys[5] + c;
  }

  /** With aligned buffers, every running total is the first one's offset plus the running
      total of the counts restarted at the window start. */
  lemma {:induction false} AlignedOffset(w: Window, i: nat)
    requires Aligned(w)
    requires i < |w.values|
    ensures w.cumulative[i] == (w.cumulative[0] - w.values[0]) + PrefixSums(w.values)[i]
  {
    if i == 0 {
      PrefixSumsAt(w.values, 0);
      assert w.values[..1] == [w.values[0]];
      assert Sum([w.values[0]]) == Sum([]) + w.values[0];
    } else {
      AlignedOffset(w, i - 1);
      PrefixSumsStep(w.values, i);
    }
  }

  /** Once six counts are in an aligned window, the growth slope is determined by those six
      counts alone: it equals the slope of their running totals restarted at zero. */
  lemma SlopeFromWindowValues(w: Window, monthsSinceStart: int, countyCode: int)
    requires Aligned(w)
    requires |w.values| == SlopePoints
    ensures Derive(w, monthsSinceStart, countyCode).growthSlope == Slope6(PrefixSums(w.values))
  {
    var ps := PrefixSums(w.values);
    var c := w.cumulative[0] - w.values[0];
    forall i | 0 <= i < SlopePoints
      ensures w.cumulative[i] == ps[i] + c
    {
      AlignedOffset(w, i);
    }
    assert LastN(w.cumulative, SlopePoints) == w.cumulative;
    SlopeShiftInvariant(ps, w.cumulative, c);
  }
}

=== FILE: runner.dfy ===
/** The two drivers around the forecast loop: the single-county forecast and the batch
    over the first five counties, each reading a county's rows from the prepared table. */
module ForecastRunner {
  import opened Wrappers
  import opened Series
  import opened Sorting
  import opened Calendar
  import opened FeatureWindow
  import opened FeatureDeriver
  import opened ForecastStepper
  import opened SeriesAssembler

  /** One row of the prepared table: `county_encoded`, the month, the EV total and the
      per-county time index `months_since_start`. */
  datatype Row = Row(countyCode: int, date: YearMonth, value: real, monthsSinceStart: int)

  /** Why the single-county forecast stops without output. */
  datatype RunError =
    | UnknownCounty   // the encoder does not know the name
    | NoHistory       // no rows carry the county's code
    | TooFewRows      // fewer than three rows: lag3 does not exist

  /** What the batch loop does with one county. */
  datatype Outcome = Skipped | Forecasted(county: string, table: seq<CombinedRow>)

  /** Rows a window needs before the first step can read lag3. */
  const MinLagRows: nat := 3

  /** Rows the batch loop requires before it forecasts a county. */
  const MinBatchRows: nat := 6

  /** The batch loop forecasts only the first five counties. */
  const BatchSize: nat := 5

  /** `numeric_date`, the sort key of the county table. */
  function RowKey(r: Row): int
  {
    Index(r.date)
  }

  /** The rows carrying `code`, each as often as it occurs in the table. */
  function CountyRows(rows: seq<Row>, code: int): (r: seq<Row>)
    ensures forall x :: multiset(r)[x] == if x.countyCode == code then multiset(rows)[x] else 0
  {
    if |rows| == 0 then []
    else
      var front := rows[..|rows| - 1];
      var last := rows[|rows| - 1];
      assert rows == front + [last];
      if last.countyCode == code then CountyRows(front, code) + [last] else CountyRows(front, code)
  }

  /** `df[df['county_encoded'] == county_code].sort_values("numeric_date")`. */
  function CountyHistory(rows: seq<Row>, code: int): (hist: seq<Row>)
    ensures SortedBy(hist, RowKey)
    ensures forall x :: multiset(hist)[x] == if x.countyCode == code then multiset(rows)[x] else 0
  {
    SortBy(CountyRows(rows, code), RowKey)
  }

  /** The EV-count column of a county's history: the values of its historical frame rows. */
  function Counts(hist: seq<Row>): (vs: seq<real>)
    ensures |vs| == |hist|
    ensures forall i :: 0 <= i < |hist| ==> vs[i] == hist[i].value
  {
    Values(HistoricalPoints(hist))
  }

  /** `county_df['months_since_start'].max()`. */
  function MaxTimeIndex(hist: seq<Row>): (m: int)
    requires |hist| > 0
    ensures forall i :: 0 <= i < |hist| ==> hist[i].monthsSinceStart <= m
    ensures exists i :: 0 <= i < |hist| && hist[i].monthsSinceStart == m
  {
    if |hist| == 1 then hist[0].monthsSinceStart
    else
      var m := MaxTimeIndex(hist[..|hist| - 1]);
      var last := hist[|hist| - 1].monthsSinceStart;
      if last > m then last else m
  }

  /** The state before the first step: the window over the last six counts, the month of
      the newest row, and the largest time index of the county. */
  function StartState(hist: seq<Row>): (st: State)
    requires |hist| >= MinLagRows
    ensures Ready(st)
    ensures Represents(st.window, LastN(Counts(hist), Capacity))
    ensures st.latest == hist[|hist| - 1].date
    ensures forall i :: 0 <= i < |hist| ==> hist[i].monthsSinceStart <= st.monthsSinceStart
    ensures exists i :: 0 <= i < |hist| && hist[i].monthsSinceStart == st.monthsSinceStart
  {
    var w := Init(Counts(hist));
    InitRepresents(Counts(hist));
    assert w.values == LastN(Counts(hist), Capacity);
    State(w, hist[|hist| - 1].date, MaxTimeIndex(hist))
  }

  /** The historical rows of the combined frame. */
  function HistoricalPoints(hist: seq<Row>): (ps: seq<Point>)
    ensures |ps| == |hist|
    ensures forall i :: 0 <= i < |hist| ==> MonthKey(ps[i]) == RowKey(hist[i]) && ps[i].source == Historical
    ensures forall i :: 0 <= i < |hist| ==> ps[i].date == hist[i].date && ps[i].monthsSinceStart == hist[i].monthsSinceStart
  {
    seq(|hist|, i requires 0 <= i < |hist| => Point(hist[i].date, hist[i].value, hist[i].monthsSinceStart, Historical))
  }

  /** The forecast rows of the combined frame, dated as the loop dated them. */
  function ForecastPoints(recs: seq<ForecastRecord>): (ps: seq<Point>)
    ensures |ps| == |recs|
    ensures Values(ps) == Predictions(recs)
    ensures forall k :: 0 <= k < |recs| ==> ps[k].date == recs[k].date && ps[k].source == Forecast
    ensures forall k :: 0 <= k < |recs| ==> ps[k].monthsSinceStart == recs[k].monthsSinceStart
  {
    seq(|recs|, k requires 0 <= k < |recs| => Point(recs[k].date, recs[k].value, recs[k].monthsSinceStart, Forecast))
  }

  /** The batch loop's forecast rows: row k is dated k + 1 months after the newest
      historical month rather than by the running month. */
  function OffsetDatedPoints(latest: YearMonth, recs: seq<ForecastRecord>): (ps: seq<Point>)
    ensures |ps| == |recs|
    ensures forall k :: 0 <= k < |recs| ==> Index(ps[k].date) == Index(latest) + k + 1
    ensures forall k :: 0 <= k < |recs| ==>
      && ps[k].value == recs[k].value
      && ps[k].monthsSinceStart == recs[k].monthsSinceStart
      && ps[k].source == Forecast
  {
    seq(|recs|, k requires 0 <= k < |recs| => Point(AddMonths(latest, k + 1), recs[k].value, recs[k].monthsSinceStart, Forecast))
  }

  /** Both ways of dating forecasts agree on the records of a run. */
  lemma OffsetDatesAgree(st: State, steps: nat, countyCode: int, predict: Features -> real)
    requires Ready(st)
    ensures
      var recs := Run(st, steps, countyCode, predict).1;
      OffsetDatedPoints(st.latest, recs) == ForecastPoints(recs)
  {
    var recs := Run(st, steps, countyCode, predict).1;
    forall k | 0 <= k < steps
      ensures OffsetDatedPoints(st.latest, recs)[k] == ForecastPoints(recs)[k]
    {
      RunSchedule(st, steps, countyCode, predict, k);
    }
  }

  /** A month-ordered history followed by consecutive months after its newest month is in
      month order. */
  lemma AppendAfterSorted(hp: seq<Point>, fp: seq<Point>, m: int)
    requires SortedBy(hp, MonthKey)
    requires forall i :: 0 <= i < |hp| ==> MonthKey(hp[i]) <= m
    requires forall k :: 0 <= k < |fp| ==> MonthKey(fp[k]) == m + k + 1
    ensures SortedBy(hp + fp, MonthKey)
  {
    var all := hp + fp;
    forall i, j | 0 <= i < j < |all|
      ensures MonthKey(all[i]) <= MonthKey(all[j])
    {
      if j < |hp| {
        assert all[i] == hp[i] && all[j] == hp[j];
      } else if i < |hp| {
        assert all[i] == hp[i] && all[j] == fp[j - |hp|];
      } else {
        assert all[i] == fp[i - |hp|] && all[j] == fp[j - |hp|];
      }
    }
  }

  /** A month-ordered history gives month-ordered historical points, none later than the
      newest row. */
  lemma HistoricalPointsOrdered(hist: seq<Row>)
    requires |hist| > 0
    requires SortedBy(hist, RowKey)
    ensures SortedBy(HistoricalPoints(hist), MonthKey)
    ensures forall i :: 0 <= i < |hist| ==> MonthKey(HistoricalPoints(hist)[i]) <= Index(hist[|hist| - 1].date)
  {
    var hp := HistoricalPoints(hist);
    forall i, j | 0 <= i < j < |hp|
      ensures MonthKey(hp[i]) <= MonthKey(hp[j])
    {
      assert RowKey(hist[i]) <= RowKey(hist[j]);
    }
    forall i | 0 <= i < |hp|
      ensures MonthKey(hp[i]) <= Index(hist[|hist| - 1].date)
    {
      if i < |hist| - 1 {
        assert RowKey(hist[i]) <= RowKey(hist[|hist| - 1]);
      }
    }
  }

  /** History followed by a run started at the newest historical month is in month
      order. */
  lemma RunFollowsHistory(hist: seq<Row>, st: State, steps: nat, countyCode: int, predict: Features -> real)
    requires |hist| > 0
    requires SortedBy(hist, RowKey)
    requires Ready(st)
    requires st.latest == hist[|hist| - 1].date
    ensures SortedBy(HistoricalPoints(hist) + ForecastPoints(Run(st, steps, countyCode, predict).1), MonthKey)
  {
    var fp := ForecastPoints(Run(st, steps, countyCode, predict).1);
    forall k | 0 <= k < |fp|
      ensures MonthKey(fp[k]) == Index(st.latest) + k + 1
    {
      RunSchedule(st, steps, countyCode, predict, k);
    }
    HistoricalPointsOrdered(hist);
    AppendAfterSorted(HistoricalPoints(hist), fp, Index(st.latest));
  }

  /** The combined frame of a forecast county keeps history then forecasts in their own
      order, and its last "Cumulative EVs" entry is the county's historical total plus
      every forecast. */
  lemma CountyTableInOrder(hist: seq<Row>, steps: nat, countyCode: int, predict: Features -> real)
    requires |hist| >= MinLagRows
    requires SortedBy(hist, RowKey)
    ensures
      var recs := Run(StartState(hist), steps, countyCode, predict).1;
      var table := Combine(HistoricalPoints(hist), ForecastPoints(recs));
      && Points(table) == HistoricalPoints(hist) + ForecastPoints(recs)
      && table[|hist| + steps - 1].cumulative == Sum(Counts(hist)) + Sum(Predictions(recs))
  {
    var st := StartState(hist);
    var recs := Run(st, steps, countyCode, predict).1;
    RunFollowsHistory(hist, st, steps, countyCode, predict);
    CombineInOrder(HistoricalPoints(hist), ForecastPoints(recs));
  }

  /** The batch loop's frame for a county with enough rows: history followed by the
      run's records dated by offset from the newest historical month, in month order, and
      ending at the historical total plus every forecast. */
  function BatchForecast(hist: seq<Row>, code: int, predict: Features -> real): (table: seq<CombinedRow>)
    requires |hist| >= MinLagRows
    requires SortedBy(hist, RowKey)
    ensures
      var recs := Run(StartState(hist), ForecastHorizon, code, predict).1;
      && |table| == |hist| + ForecastHorizon
      && Points(table) == HistoricalPoints(hist) + ForecastPoints(recs)
      && HasRunningTotals(table)
      && table[|hist| + ForecastHorizon - 1].cumulative == Sum(Counts(hist)) + Sum(Predictions(recs))
  {
    var st := StartState(hist);
    var recs := Run(st, ForecastHorizon, code, predict).1;
    OffsetDatesAgree(st, ForecastHorizon, code, predict);
    CountyTableInOrder(hist, ForecastHorizon, code, predict);
    Combine(HistoricalPoints(hist), OffsetDatedPoints(st.latest, recs))
  }

  /** The single-county driver once the county's rows are found: 36 steps from the start
      state, then the combined frame of history and forecasts. */
  function CountyForecast(hist: seq<Row>, code: int, predict: Features -> real)
    : (r: (seq<ForecastRecord>, seq<CombinedRow>))
    requires |hist| >= MinLagRows
    requires SortedBy(hist, RowKey)
    ensures r.0 == Run(StartState(hist), ForecastHorizon, code, predict).1
    ensures |r.1| == |hist| + ForecastHorizon
    ensures Points(r.1) == HistoricalPoints(hist) + ForecastPoints(r.0)
    ensures HasRunningTotals(r.1)
    ensures r.1[|hist| + ForecastHorizon - 1].cumulative == Sum(Counts(hist)) + Sum(Predictions(r.0))
  {
    var recs := Run(StartState(hist), ForecastHorizon, code, predict).1;
    CountyTableInOrder(hist, ForecastHorizon, code, predict);
    (recs, Combine(HistoricalPoints(hist), ForecastPoints(recs)))
  }

  /** The single-county forecast for `county`: the 36 forecast records and the combined
      frame, or the reason the script stops. On success the records are the loop's run
      from the county's history, and the frame is that history followed by the records in
      month order, its last running total the historical total plus every forecast. */
  function ForecastSingle(rows: seq<Row>, codes: map<string, int>, county: string, predict: Features -> real)
    : (r: Result<(seq<ForecastRecord>, seq<CombinedRow>), RunError>)
    ensures county !in codes ==> r == Failure(UnknownCounty)
    ensures county in codes ==>
      var hist := CountyHistory(rows, codes[county]);
      && (|hist| == 0 ==> r == Failure(NoHistory))
      && (0 < |hist| < MinLagRows ==> r == Failure(TooFewRows))
      && (|hist| >= MinLagRows ==>
            && r.Success?
            && r.value.0 == Run(StartState(hist), ForecastHorizon, codes[county], predict).1
            && |r.value.1| == |hist| + ForecastHorizon
            && Points(r.value.1) == HistoricalPoints(hist) + ForecastPoints(r.value.0)
            && HasRunningTotals(r.value.1)
            && r.value.1[|hist| + ForecastHorizon - 1].cumulative
                 == Sum(Counts(hist)) + Sum(Predictions(r.value.0)))
  {
    if county !in codes then Failure(UnknownCounty)
    else
      var code := codes[county];
      var hist := CountyHistory(rows, code);
      if |hist| == 0 then Failure(NoHistory)
      else if |hist| < MinLagRows then Failure(TooFewRows)
      else
        Success(CountyForecast(hist, code, predict))
  }

  /** One county of the batch loop: skipped when the name is unknown or it has fewer than
      six rows, otherwise forecast and combined. */
  function RunCounty(rows: seq<Row>, codes: map<string, int>, county: string, predict: Features -> real): (o: Outcome)
    ensures o.Skipped? <==> county !in codes || |CountyHistory(rows, codes[county])| < MinBatchRows
    ensures o.Forecasted? ==>
      && o.county == county
      && |o.table| == |CountyHistory(rows, codes[county])| + ForecastHorizon
  {
    if county !in codes then Skipped
    else
      var code := codes[county];
      var hist := CountyHistory(rows, code);
      if |hist| < MinBatchRows then Skipped
      else
        Forecasted(county, BatchForecast(hist, code, predict))
  }

  /** A forecast county's batch frame is its history followed by the 36 forecast rows of
      the loop run, in month order, and its last running total is the historical total
      plus every forecast. */
  lemma RunCountyTable(rows: seq<Row>, codes: map<string, int>, county: string, predict: Features -> real)
    requires county in codes && |CountyHistory(rows, codes[county])| >= MinBatchRows
    ensures
      var hist := CountyHistory(rows, codes[county]);
      var recs := Run(StartState(hist), ForecastHorizon, codes[county], predict).1;
      var o := RunCounty(rows, codes, county, predict);
      && o.Forecasted?
      && Points(o.table) == HistoricalPoints(hist) + ForecastPoints(recs)
      && HasRunningTotals(o.table)
      && o.table[|hist| + ForecastHorizon - 1].cumulative == Sum(Counts(hist)) + Sum(Predictions(recs))
  {
    var hist := CountyHistory(rows, codes[county]);
    assert RunCounty(rows, codes, county, predict).table == BatchForecast(hist, codes[county], predict);
  }

  /** A forecast county's batch frame is the single-county frame for the same county. */
  lemma BatchMatchesSingle(rows: seq<Row>, codes: map<string, int>, county: string, predict: Features -> real)
    requires county in codes && |CountyHistory(rows, codes[county])| >= MinBatchRows
    ensures RunCounty(rows, codes, county, predict).Forecasted?
    ensures ForecastSingle(rows, codes, county, predict).Success?
    ensures RunCounty(rows, codes, county, predict).table == ForecastSingle(rows, codes, county, predict).value.1
  {
    var code := codes[county];
    var hist := CountyHistory(rows, code);
    OffsetDatesAgree(StartState(hist), ForecastHorizon, code, predict);
  }

  /** The batch loop over the first five counties: one outcome per county, each decided by
      that county's rows alone. */
  function RunBatch(rows: seq<Row>, codes: map<string, int>, counties: seq<string>, predict: Features -> real)
    : (os: seq<Outcome>)
    ensures |os| == if |counties| < BatchSize then |counties| else BatchSize
    ensures forall i :: 0 <= i < |os| ==> os[i] == RunCounty(rows, codes, counties[i], predict)
  {
    var selected := if |counties| < BatchSize then counties else counties[..BatchSize];
    seq(|selected|, i requires 0 <= i < |selected| => RunCounty(rows, codes, selected[i], predict))
  }

  /** Positions of the forecast counties among the outcomes, in county order. */
  function ForecastedPositions(os: seq<Outcome>): (pos: seq<nat>)
    ensures forall j :: 0 <= j < |pos| ==> pos[j] < |os| && os[pos[j]].Forecasted?
    ensures forall j, k :: 0 <= j < k < |pos| ==> pos[j] < pos[k]
    ensures forall i :: 0 <= i < |os| && os[i].Forecasted? ==> i in pos
  {
    if |os| == 0 then []
    else
      var front := ForecastedPositions(os[..|os| - 1]);
      if os[|os| - 1].Forecasted? then front + [|os| - 1] else front
  }

  /** `all_combined`: the frames of the counties that were forecast, in county order —
      the j-th frame belongs to the j-th forecast county, and no other frame is kept. */
  function Collected(os: seq<Outcome>): (tables: seq<seq<CombinedRow>>)
    ensures |tables| == |ForecastedPositions(os)| <= |os|
    ensures forall j :: 0 <= j < |tables| ==> tables[j] == os[ForecastedPositions(os)[j]].table
    ensures forall t :: t in tables <==> exists i :: 0 <= i < |os| && os[i].Forecasted? && os[i].table == t
  {
    if |os| == 0 then []
    else
      var front := Collected(os[..|os| - 1]);
      var last := os[|os| - 1];
      assert forall i :: 0 <= i < |os| - 1 ==> os[..|os| - 1][i] == os[i];
      if last.Forecasted? then front + [last.table] else front
  }
}

=== FILE: series.dfy ===
/** Sums, running totals and trailing windows over series of EV counts. */
module Series {

  /** Total of a sequence, accumulated oldest to newest. */
  function Sum(s: seq<real>): real
  {
    if |s| == 0 then 0.0 else Sum(s[..|s| - 1]) + s[|s| - 1]
  }

  /** Running totals of `s`: entry i is the total of entries 0..i. */
  function PrefixSums(s: seq<real>): (r: seq<real>)
    ensures |r| == |s|
  {
    if |s| == 0 then [] else PrefixSums(s[..|s| - 1]) + [Sum(s)]
  }

  /** The last `n` entries of `s`, or all of `s` when it is shorter (Python's `s[-n:]`). */
  function LastN(s: seq<real>, n: nat): (r: seq<real>)
    ensures |r| <= n && |r| <= |s|
    ensures |r| == n || |r| == |s|
  {
    if |s| <= n then s else s[|s| - n..]
  }

  lemma SumAppend(s: seq<real>, x: real)
    ensures Sum(s + [x]) == Sum(s) + x
  {
    assert (s + [x])[..|s|] == s;
  }

  lemma {:induction false} SumConcat(a: seq<real>, b: seq<real>)
    ensures Sum(a + b) == Sum(a) + Sum(b)
    decreases |b|
  {
    if |b| == 0 {
      assert a + b == a;
    } else {
      var b' := b[..|b| - 1];
      assert a + b == (a + b') + [b[|b| - 1]];
      assert b == b' + [b[|b| - 1]];
      SumAppend(a + b', b[|b| - 1]);
      SumAppend(b', b[|b| - 1]);
      SumConcat(a, b');
    }
  }

  /** Appending one count extends the running totals by the old total plus that count. */
  lemma PrefixSumsAppend(s: seq<real>, x: real)
    ensures PrefixSums(s + [x]) == PrefixSums(s) + [Sum(s) + x]
  {
    assert (s + [x])[..|s|] == s;
    SumAppend(s, x);
  }

  /** Entry i of the running totals is the total of entries 0..i. */
  lemma {:induction false} PrefixSumsAt(s: seq<real>, i: nat)
    requires i < |s|
    ensures PrefixSums(s)[i] == Sum(s[..i + 1])
    decreases |s|
  {
    if i < |s| - 1 {
      var front := s[..|s| - 1];
      assert front[..i + 1] == s[..i + 1];
      PrefixSumsAt(front, i);
    } else {
      assert s[..i + 1] == s;
    }
  }

  /** Consecutive running totals differ by the count at the later position. */
  lemma PrefixSumsStep(s: seq<real>, i: nat)
    requires 1 <= i < |s|
    ensures PrefixSums(s)[i] - PrefixSums(s)[i - 1] == s[i]
  {
    PrefixSumsAt(s, i);
    PrefixSumsAt(s, i - 1);
    assert s[..i + 1][..i] == s[..i];
  }

  lemma PrefixSumsFirst(s: seq<real>)
    requires |s| > 0
    ensures PrefixSums(s)[0] == s[0]
  {
    PrefixSumsAt(s, 0);
    assert s[..1] == [] + [s[0]];
    SumAppend([], s[0]);
  }

  /** The running totals start at the first entry and grow by each entry in turn. */
  lemma PrefixSumsRecurrence(s: seq<real>)
    ensures |s| > 0 ==> PrefixSums(s)[0] == s[0]
    ensures forall i :: 1 <= i < |s| ==> PrefixSums(s)[i] == PrefixSums(s)[i - 1] + s[i]
  {
    if |s| > 0 {
      PrefixSumsFirst(s);
    }
    forall i | 1 <= i < |s|
      ensures PrefixSums(s)[i] == PrefixSums(s)[i - 1] + s[i]
    {
      PrefixSumsStep(s, i);
    }
  }

  lemma SliceSplit(s: seq<real>, j: nat, k: nat)
    requires j <= k <= |s|
    ensures s[..k] == s[..j] + s[j..][..k - j]
  {
  }

  lemma SumSplit(s: seq<real>, j: nat, k: nat)
    requires j <= k <= |s|
    ensures Sum(s[..k]) == Sum(s[..j]) + Sum(s[j..][..k - j])
  {
    SliceSplit(s, j, k);
    SumConcat(s[..j], s[j..][..k - j]);
  }

  /** Running totals restarted at position j differ from the full running totals by the
      total of the entries before j. */
  lemma PrefixSumsRestart(s: seq<real>, j: nat, i: nat)
    requires j + i < |s|
    ensures PrefixSums(s)[j + i] == Sum(s[..j]) + PrefixSums(s[j..])[i]
  {
    PrefixSumsAtShifted(s, j, i);
    PrefixSumsAtRestart(s, j, i);
    SumSplitAt(s, j, i);
  }

  lemma SumSplitAt(s: seq<real>, j: nat, i: nat)
    requires j + i < |s|
    ensures Sum(s[..j + i + 1]) == Sum(s[..j]) + Sum(s[j..][..i + 1])
  {
    SumSplit(s, j, j + i + 1);
  }

  lemma PrefixSumsAtShifted(s: seq<real>, j: nat, i: nat)
    requires j + i < |s|
    ensures PrefixSums(s)[j + i] == Sum(s[..j + i + 1])
  {
    PrefixSumsAt(s, j + i);
  }

  lemma PrefixSumsAtRestart(s: seq<real>, j: nat, i: nat)
    requires j + i < |s|
    ensures PrefixSums(s[j..])[i] == Sum(s[j..][..i + 1])
  {
    PrefixSumsAt(s[j..], i);
  }

  /** `LastN` keeps the tail of `s`: its entries are the last |LastN(s, n)| entries of `s`,
      in order. Stated apart from `LastN` so that proofs about windows see it only on
      request. */
  lemma LastNIsSuffix(s: seq<real>, n: nat)
    ensures LastN(s, n) == s[|s| - |LastN(s, n)|..]
    ensures forall i :: 0 <= i < |LastN(s, n)| ==> LastN(s, n)[i] == s[|s| - |LastN(s, n)| + i]
  {
  }

  lemma LastNLast(s: seq<real>, n: nat)
    requires 0 < n && 0 < |s|
    ensures |LastN(s, n)| > 0
    ensures LastN(s, n)[|LastN(s, n)| - 1] == s[|s| - 1]
  {
  }

  /** Taking the last n entries first does not change the last n entries of a longer series. */
  lemma LastNConcat(a: seq<real>, b: seq<real>, n: nat)
    ensures LastN(LastN(a, n) + b, n) == LastN(a + b, n)
  {
    if |a| > n {
      var t := a[|a| - n..] + b;
      assert t == (a + b)[|a| - n..];
      var k := |t| - n;
      assert LastN(t, n) == t[k..];
      assert LastN(a + b, n) == (a + b)[|a| - n + k..];
      assert t[k..] == (a + b)[|a| - n + k..];
    }
  }

  /** The running totals as the script accumulates them (`np.cumsum`, `Series.cumsum`):
      one pass carrying the total so far. */
  method CumulativeSum(s: seq<real>) returns (r: seq<real>)
    ensures |r| == |s|
    ensures forall i :: 0 <= i < |s| ==> r[i] == Sum(s[..i + 1])
    ensures r == PrefixSums(s)
  {
    var total := 0.0;
    r := [];
    var k := 0;
    while k < |s|
      invariant 0 <= k <= |s|
      invariant |r| == k
      invariant total == Sum(s[..k])
      invariant forall i :: 0 <= i < k ==> r[i] == Sum(s[..i + 1])
    {
      assert s[..k + 1][..k] == s[..k];
      total := total + s[k];
      r := r + [total];
      k := k + 1;
    }
    forall i | 0 <= i < |s|
      ensures r[i] == PrefixSums(s)[i]
    {
      PrefixSumsAt(s, i);
    }
  }
}

=== FILE: sorting.dfy ===
/** Ordering of records by an integer key, standing in for `sort_values`. */
module Sorting {

  ghost predicate SortedBy<T>(s: seq<T>, key: T -> int)
  {
    forall i, j :: 0 <= i < j < |s| ==> key(s[i]) <= key(s[j])
  }

  /** Places `x` after every entry of the ordered `s` whose key does not exceed its own. */
  function InsertBy<T>(s: seq<T>, x: T, key: T -> int): (r: seq<T>)
    ensures |r| == |s| + 1
    ensures multiset(r) == multiset(s) + multiset{x}
    ensures SortedBy(s, key) ==> SortedBy(r, key)
  {
    if |s| == 0 || key(s[|s| - 1]) <= key(x) then
      s + [x]
    else
      var front := s[..|s| - 1];
      var last := s[|s| - 1];
      var r' := InsertBy(front, x, key);
      assert s == front + [last];
      assert SortedBy(s, key) ==> SortedBy(r' + [last], key) by {
        if SortedBy(s, key) {
          forall i | 0 <= i < |r'|
            ensures key(r'[i]) <= key(last)
          {
            assert r'[i] in multiset(r');
            if r'[i] != x {
              assert r'[i] in multiset(front);
              var j :| 0 <= j < |front| && front[j] == r'[i];
              assert s[j] == front[j];
            }
          }
        }
      }
      r' + [last]
  }

  /** Insertion sort by `key`: a permutation of the input, ordered by the key. */
  function SortBy<T>(s: seq<T>, key: T -> int): (r: seq<T>)
    ensures |r| == |s|
    ensures multiset(r) == multiset(s)
    ensures SortedBy(r, key)
  {
    if |s| == 0 then []
    else
      assert s == s[..|s| - 1] + [s[|s| - 1]];
      InsertBy(SortBy(s[..|s| - 1], key), s[|s| - 1], key)
  }

  lemma InsertAtEnd<T>(s: seq<T>, x: T, key: T -> int)
    requires |s| == 0 || key(s[|s| - 1]) <= key(x)
    ensures InsertBy(s, x, key) == s + [x]
  {
  }

  /** Sorting an already ordered sequence leaves it unchanged. */
  lemma {:induction false} SortBySorted<T>(s: seq<T>, key: T -> int)
    requires SortedBy(s, key)
    ensures SortBy(s, key) == s
  {
    if |s| > 0 {
      var front := s[..|s| - 1];
      var last := s[|s| - 1];
      assert SortedBy(front, key);
      SortBySorted(front, key);
      assert SortBy(s, key) == InsertBy(SortBy(front, key), last, key);
      if |front| > 0 {
        assert key(front[|front| - 1]) <= key(last);
      }
      InsertAtEnd(front, last, key);
      assert s == front + [last];
    }
  }
}

=== FILE: stepper.dfy ===
/** One forecast step and the horizon loop that repeats it for a county. */
module ForecastStepper {
  import opened Series
  import opened Calendar
  import opened FeatureWindow
  import opened FeatureDeriver

  /** Months forecast per county: three years. */
  const ForecastHorizon: nat := 36

  /** What the loop carries from one step to the next: the trailing buffers, the month of
      the newest value, and the county's time index `months_since_start`. */
  datatype State = State(window: Window, latest: YearMonth, monthsSinceStart: int)

  /** One emitted forecast row (`Source` = 'Forecast'). */
  datatype ForecastRecord = ForecastRecord(date: YearMonth, value: real, monthsSinceStart: int)

  /** A step can run: lag3 exists, and both buffers have the same length within capacity. */
  ghost predicate Ready(st: State)
  {
    && 3 <= |st.window.values| <= Capacity
    && |st.window.cumulative| == |st.window.values|
  }

  /** The forecast values of a run, in order. */
  function Predictions(recs: seq<ForecastRecord>): (vs: seq<real>)
    ensures |vs| == |recs|
  {
    seq(|recs|, k requires 0 <= k < |recs| => recs[k].value)
  }

  /** Advance one month and the time index by one, derive the features from the window,
      predict, push the prediction into the window and emit it as a record. */
  function Step(st: State, countyCode: int, predict: Features -> real): (r: (State, ForecastRecord))
    requires Ready(st)
    ensures Ready(r.0)
    ensures Index(r.1.date) == Index(st.latest) + 1
    ensures r.0.latest == r.1.date
    ensures r.1.monthsSinceStart == st.monthsSinceStart + 1 == r.0.monthsSinceStart
    ensures |r.0.window.values| >= |st.window.values|
    ensures r.1.value == predict(Derive(st.window, st.monthsSinceStart + 1, countyCode))
    ensures r.0.window == Push(st.window, r.1.value)
  {
    var next := NextMonth(st.latest);
    var monthsSinceStart := st.monthsSinceStart + 1;
    var features := Derive(st.window, monthsSinceStart, countyCode);
    var pred := predict(features);
    (State(Push(st.window, pred), next, monthsSinceStart), ForecastRecord(next, pred, monthsSinceStart))
  }

  /** `steps` forecast steps from `st`: the final state and the emitted records. */
  function Run(st: State, steps: nat, countyCode: int, predict: Features -> real): (r: (State, seq<ForecastRecord>))
    requires Ready(st)
    ensures Ready(r.0)
    ensures |r.1| == steps
    ensures r.0.monthsSinceStart == st.monthsSinceStart + steps
    ensures Index(r.0.latest) == Index(st.latest) + steps
    decreases steps
  {
    if steps == 0 then
      (st, [])
    else
      var first := Step(st, countyCode, predict);
      var rest := Run(first.0, steps - 1, countyCode, predict);
      (rest.0, [first.1] + rest.1)
  }

  /** Record k of a run carries time index start + k + 1 and the month k + 1 months after
      the starting month, which is how the batch loop dates its records. */
  lemma {:induction false} RunSchedule(st: State, steps: nat, countyCode: int, predict: Features -> real, k: nat)
    requires Ready(st)
    requires k < steps
    ensures Run(st, steps, countyCode, predict).1[k].monthsSinceStart == st.monthsSinceStart + k + 1
    ensures Run(st, steps, countyCode, predict).1[k].date == AddMonths(st.latest, k + 1)
    decreases steps
  {
    var first := Step(st, countyCode, predict);
    var rest := Run(first.0, steps - 1, countyCode, predict);
    assert Run(st, steps, countyCode, predict).1 == [first.1] + rest.1;
    if k == 0 {
      IndexInjective(first.1.date, AddMonths(st.latest, 1));
    } else {
      RunSchedule(first.0, steps - 1, countyCode, predict, k - 1);
      assert Run(st, steps, countyCode, predict).1[k] == rest.1[k - 1];
      IndexInjective(first.0.latest, AddMonths(st.latest, 1));
      IndexInjective(AddMonths(first.0.latest, k), AddMonths(st.latest, k + 1));
    }
  }

  /** After a run the newest month is the starting month plus the number of steps. */
  lemma RunEndMonth(st: State, steps: nat, countyCode: int, predict: Features -> real)
    requires Ready(st)
    ensures Run(st, steps, countyCode, predict).0.latest == AddMonths(st.latest, steps)
  {
    IndexInjective(Run(st, steps, countyCode, predict).0.latest, AddMonths(st.latest, steps));
  }

  lemma PredictionsCons(rec: ForecastRecord, rest: seq<ForecastRecord>)
    ensures Predictions([rec] + rest) == [rec.value] + Predictions(rest)
  {
  }

  /** Running the loop keeps the window equal to the trailing part of the starting series
      followed by every prediction made so far. */
  lemma {:induction false} RunRepresents(st: State, steps: nat, countyCode: int, predict: Features -> real, s: seq<real>)
    requires Ready(st)
    requires Represents(st.window, s)
    ensures Represents(Run(st, steps, countyCode, predict).0.window,
                       s + Predictions(Run(st, steps, countyCode, predict).1))
    decreases steps
  {
    if steps == 0 {
      assert s + Predictions([]) == s;
    } else {
      var first := Step(st, countyCode, predict);
      var rest := Run(first.0, steps - 1, countyCode, predict);
      assert Run(st, steps, countyCode, predict) == (rest.0, [first.1] + rest.1);
      PushRepresents(st.window, s, first.1.value);
      RunRepresents(first.0, steps - 1, countyCode, predict, s + [first.1.value]);
      PredictionsCons(first.1, rest.1);
      assert s + [first.1.value] + Predictions(rest.1) == s + Predictions([first.1] + rest.1);
    }
  }

  /** The first k records of a longer run are the records of a k-step run, and record k is
      the step taken from that run's final state. */
  lemma {:induction false} RunPrefix(st: State, steps: nat, countyCode: int, predict: Features -> real, k: nat)
    requires Ready(st)
    requires k < steps
    ensures Run(st, steps, countyCode, predict).1[..k] == Run(st, k, countyCode, predict).1
    ensures Run(st, steps, countyCode, predict).1[k] == Step(Run(st, k, countyCode, predict).0, countyCode, predict).1
    decreases k
  {
    var first := Step(st, countyCode, predict);
    var rest := Run(first.0, steps - 1, countyCode, predict);
    assert Run(st, steps, countyCode, predict) == (rest.0, [first.1] + rest.1);
    if k == 0 {
      assert Run(st, 0, countyCode, predict) == (st, []);
    } else {
      RunPrefix(first.0, steps - 1, countyCode, predict, k - 1);
      var mid := Run(first.0, k - 1, countyCode, predict);
      assert Run(st, k, countyCode, predict) == (mid.0, [first.1] + mid.1);
      assert ([first.1] + rest.1)[..k] == [first.1] + rest.1[..k - 1];
    }
  }

  /** The window the loop holds after the counts `s` have passed through it: the last six
      counts and the last six running totals of the whole series. */
  function TrailingWindow(s: seq<real>): (w: Window)
    ensures |w.values| == if |s| < Capacity then |s| else Capacity
    ensures w.values == s[|s| - |w.values|..]
    ensures Aligned(w)
    ensures |s| > 0 ==> |w.cumulative| > 0 && w.cumulative[|w.cumulative| - 1] == Sum(s)
  {
    var w := Window(LastN(s, Capacity), LastN(PrefixSums(s), Capacity));
    assert Aligned(w) && (|s| > 0 ==> |w.cumulative| > 0 && w.cumulative[|w.cumulative| - 1] == Sum(s)) by {
      if |s| > 0 {
        RepresentsAligned(w, s);
        RepresentedTail(w, s);
      }
    }
    w
  }

  /** The loop is autoregressive: forecast k is the model applied to the features of the
      trailing window of the starting series followed by forecasts 0..k-1, at time index
      start + k + 1. */
  lemma RunIsAutoregressive(st: State, steps: nat, countyCode: int, predict: Features -> real, s: seq<real>, k: nat)
    requires Ready(st)
    requires Represents(st.window, s)
    requires k < steps
    ensures
      var recs := Run(st, steps, countyCode, predict).1;
      var w := TrailingWindow(s + Predictions(recs[..k]));
      |w.values| >= 3 &&
      recs[k].value == predict(Derive(w, st.monthsSinceStart + k + 1, countyCode))
  {
    RunPrefix(st, steps, countyCode, predict, k);
    var mid := Run(st, k, countyCode, predict);
    RunRepresents(st, k, countyCode, predict, s);
    assert mid.0.window == TrailingWindow(s + Predictions(mid.1));
  }

  /** One more step appends one record and advances the final state by one step. */
  lemma {:induction false} RunSnoc(st: State, steps: nat, countyCode: int, predict: Features -> real)
    requires Ready(st)
    ensures
      var run := Run(st, steps, countyCode, predict);
      var last := Step(run.0, countyCode, predict);
      Run(st, steps + 1, countyCode, predict) == (last.0, run.1 + [last.1])
    decreases steps
  {
    if steps > 0 {
      var first := Step(st, countyCode, predict);
      RunSnoc(first.0, steps - 1, countyCode, predict);
      var rest := Run(first.0, steps - 1, countyCode, predict);
      var last := Step(rest.0, countyCode, predict);
      assert Run(st, steps, countyCode, predict) == (rest.0, [first.1] + rest.1);
      assert Run(st, steps + 1, countyCode, predict) == (last.0, [first.1] + (rest.1 + [last.1]));
      assert [first.1] + (rest.1 + [last.1]) == ([first.1] + rest.1) + [last.1];
    } else {
      var first := Step(st, countyCode, predict);
      var none: seq<ForecastRecord> := [];
      assert Run(st, steps, countyCode, predict) == (st, none);
      assert Run(st, steps + 1, countyCode, predict) == (first.0, [first.1] + none);
      assert [first.1] + none == none + [first.1];
    }
  }

  /** The batch loop: each step dates its record as the last historical month plus the
      number of records so far plus one, instead of advancing a running month. */
  method ForecastLoop(st: State, horizon: nat, countyCode: int, predict: Features -> real)
    returns (final: State, recs: seq<ForecastRecord>)
    requires Ready(st)
    ensures (final, recs) == Run(st, horizon, countyCode, predict)
    ensures |recs| == horizon
    ensures forall k :: 0 <= k < horizon ==> recs[k].date == AddMonths(st.latest, k + 1)
  {
    var window := st.window;
    var monthsSinceStart := st.monthsSinceStart;
    recs := [];
    AddZeroMonths(st.latest);
    while |recs| < horizon
      invariant |recs| <= horizon
      invariant Run(st, |recs|, countyCode, predict) == (State(window, AddMonths(st.latest, |recs|), monthsSinceStart), recs)
      invariant forall k :: 0 <= k < |recs| ==> recs[k].date == AddMonths(st.latest, k + 1)
      decreases horizon - |recs|
    {
      RunSnoc(st, |recs|, countyCode, predict);
      AddMonthsStep(st.latest, |recs|);
      monthsSinceStart := monthsSinceStart + 1;
      var features := Derive(window, monthsSinceStart, countyCode);
      var pred := predict(features);
      var date := AddMonths(st.latest, |recs| + 1);
      recs := recs + [ForecastRecord(date, pred, monthsSinceStart)];
      window := Push(window, pred);
    }
    final := State(window, AddMonths(st.latest, horizon), monthsSinceStart);
  }
}

=== FILE: training.dfy ===
/** Training-time feature columns, computed over one county's whole date-ordered series
    of EV totals `xs`, where row t is the county's t-th month. */
module TrainingFeatures {
  import opened Wrappers
  import opened Series
  import opened FeatureWindow
  import opened FeatureDeriver

  /** `shift(k)` at row t: the count k rows earlier, missing for the first k rows. */
  function Shifted(xs: seq<real>, k: nat, t: nat): (r: Option<real>)
    requires t < |xs|
    ensures r.Some? <==> k <= t
    ensures r.Some? ==> r.value == xs[t - k]
  {
    if t >= k then Some(xs[t - k]) else None
  }

  /** The whole `shift(k)` column. */
  function ShiftColumn(xs: seq<real>, k: nat): (col: seq<Option<real>>)
    ensures |col| == |xs|
    ensures forall t :: 0 <= t < |xs| ==> (col[t].Some? <==> k <= t)
    ensures forall t :: k <= t < |xs| ==> col[t].value == xs[t - k]
  {
    seq(|xs|, t requires 0 <= t < |xs| => Shifted(xs, k, t))
  }

  /** `rolling(3).mean()` at row t: missing unless the rows t-2, t-1 and t are all present. */
  function RollingMean3(col: seq<Option<real>>, t: nat): (r: Option<real>)
    requires t < |col|
    ensures r.Some? <==> 2 <= t && col[t - 2].Some? && col[t - 1].Some? && col[t].Some?
    ensures r.Some? ==> 3.0 * r.value == col[t - 2].value + col[t - 1].value + col[t].value
  {
    if t >= 2 && col[t - 2].Some? && col[t - 1].Some? && col[t].Some? then
      Some((col[t - 2].value + col[t - 1].value + col[t].value) / 3.0)
    else
      None
  }

  /** `pct_change(periods=p, fill_method=None)` at row t, with infinities and NaN then
      replaced by 0. */
  function PctChangeAt(xs: seq<real>, p: nat, t: nat): (r: real)
    requires t < |xs|
    ensures (t < p || xs[t - p] == 0.0) ==> r == 0.0
    ensures p <= t && xs[t - p] != 0.0 ==> r * xs[t - p] == xs[t] - xs[t - p]
  {
    if t >= p && xs[t - p] != 0.0 then xs[t] / xs[t - p] - 1.0 else 0.0
  }

  /** The six-row rolling least-squares slope of the county's running totals at row t;
      the six rows end with row t itself. */
  function GrowthSlopeAt(xs: seq<real>, t: nat): (r: Option<real>)
    requires t < |xs|
    ensures r.Some? <==> SlopePoints <= t + 1
    ensures r.Some? ==>
      var recent := PrefixSums(xs)[t + 1 - SlopePoints..t + 1];
      IsLeastSquaresLine(recent, r.value, Intercept6(recent))
  {
    if t + 1 >= SlopePoints then
      SlopeIsLeastSquares(PrefixSums(xs)[t + 1 - SlopePoints..t + 1]);
      Some(Slope6(PrefixSums(xs)[t + 1 - SlopePoints..t + 1]))
    else
      None
  }

  /** From the sixth row on, the training slope is the least-squares slope of the six
      running totals ending at row t, against 0..5. */
  lemma GrowthSlopeAtFits(xs: seq<real>, t: nat)
    requires SlopePoints <= t + 1 <= |xs|
    ensures
      var recent := PrefixSums(xs)[t + 1 - SlopePoints..t + 1];
      IsLeastSquaresLine(recent, GrowthSlopeAt(xs, t).value, Intercept6(recent))
  {
    SlopeIsLeastSquares(PrefixSums(xs)[t + 1 - SlopePoints..t + 1]);
  }

  /** Training row t (`months_since_start` is the row's position in the county), or None
      when `dropna` removes it because a column is missing. */
  function TrainingRow(xs: seq<real>, countyCode: int, t: nat): Option<Features>
    requires t < |xs|
  {
    var lag1, lag2, lag3 := Shifted(xs, 1, t), Shifted(xs, 2, t), Shifted(xs, 3, t);
    var mean := RollingMean3(ShiftColumn(xs, 1), t);
    var slope := GrowthSlopeAt(xs, t);
    if lag1.Some? && lag2.Some? && lag3.Some? && mean.Some? && slope.Some? then
      Some(Features(t, countyCode, lag1.value, lag2.value, lag3.value, mean.value,
                    PctChangeAt(xs, 1, t), PctChangeAt(xs, 3, t), slope.value))
    else
      None
  }

  /** A kept training row holds its own position as time index, the county code, the
      three previous counts newest first, their mean, the zero-guarded one- and
      three-period changes ending at the row, and the slope of the six running totals
      ending at the row. */
  lemma TrainingRowFields(xs: seq<real>, countyCode: int, t: nat)
    requires t < |xs|
    requires TrainingRow(xs, countyCode, t).Some?
    ensures
      var f := TrainingRow(xs, countyCode, t).value;
      && SlopePoints <= t + 1
      && f.monthsSinceStart == t
      && f.countyCode == countyCode
      && f.lag1 == xs[t - 1] && f.lag2 == xs[t - 2] && f.lag3 == xs[t - 3]
      && 3.0 * f.rollMean3 == xs[t - 1] + xs[t - 2] + xs[t - 3]
      && f.pctChange1 == PctChange(xs[t], xs[t - 1])
      && f.pctChange3 == PctChange(xs[t], xs[t - 3])
      && f.growthSlope == Slope6(PrefixSums(xs)[t + 1 - SlopePoints..t + 1])
  {
    PriorRollingMeanIsLagMean(xs, t);
    PctChangeAtIsGuarded(xs, 1, t);
    PctChangeAtIsGuarded(xs, 3, t);
  }

  /** `shift(1).rolling(3).mean()` at row t is the mean of the three lags at t, and is
      missing exactly for the first three rows. */
  lemma PriorRollingMeanIsLagMean(xs: seq<real>, t: nat)
    requires t < |xs|
    ensures t >= 3 ==> RollingMean3(ShiftColumn(xs, 1), t) == Some((xs[t - 1] + xs[t - 2] + xs[t - 3]) / 3.0)
    ensures t < 3 ==> RollingMean3(ShiftColumn(xs, 1), t) == None
  {
  }

  /** Among the feature columns, a value is missing exactly before the sixth row: before it
      the growth slope is missing, from it on every feature is present. */
  lemma TrainingRowKept(xs: seq<real>, countyCode: int, t: nat)
    requires t < |xs|
    ensures TrainingRow(xs, countyCode, t).Some? <==> t >= 5
  {
    PriorRollingMeanIsLagMean(xs, t);
  }

  /** The training percent change agrees with the zero-guarded change `PctChange` between
      row t and row t - p. */
  lemma PctChangeAtIsGuarded(xs: seq<real>, p: nat, t: nat)
    requires p <= t < |xs|
    ensures PctChangeAt(xs, p, t) == PctChange(xs[t], xs[t - p])
  {
    if xs[t - p] != 0.0 {
      calc {
        xs[t] / xs[t - p] - 1.0;
        xs[t] / xs[t - p] - xs[t - p] / xs[t - p];
        (xs[t] - xs[t - p]) / xs[t - p];
      }
    }
  }

  /** Running totals of a prefix agree with the running totals of the whole series. */
  lemma PrefixSumsOfPrefix(s: seq<real>, k: nat, i: nat)
    requires i < k <= |s|
    ensures PrefixSums(s[..k])[i] == PrefixSums(s)[i]
  {
    PrefixSumsAt(s[..k], i);
    PrefixSumsAt(s, i);
    assert s[..k][..i + 1] == s[..i + 1];
  }

  lemma WindowTotalsFromSuffix(xs: seq<real>, j: nat, i: nat)
    requires j + SlopePoints <= |xs| && i < SlopePoints
    ensures PrefixSums(xs[j..])[i] == PrefixSums(xs[j..j + SlopePoints])[i]
  {
    assert xs[j..][..SlopePoints] == xs[j..j + SlopePoints];
    PrefixSumsOfPrefix(xs[j..], SlopePoints, i);
  }

  lemma RestartedTotal(xs: seq<real>, j: nat, i: nat)
    requires j + SlopePoints <= |xs| && i < SlopePoints
    ensures PrefixSums(xs)[j + i] == Sum(xs[..j]) + PrefixSums(xs[j..j + SlopePoints])[i]
  {
    PrefixSumsRestart(xs, j, i);
    WindowTotalsFromSuffix(xs, j, i);
  }

  /** Restarting the running total at the start of a six-month window, as the forecast loop
      does, gives the same slope as the county-wide running total used in training. */
  lemma CumulativeRestartKeepsSlope(xs: seq<real>, j: nat)
    requires j + SlopePoints <= |xs|
    ensures Slope6(PrefixSums(xs)[j..j + SlopePoints]) == Slope6(PrefixSums(xs[j..j + SlopePoints]))
  {
    var full := PrefixSums(xs)[j..j + SlopePoints];
    var restarted := PrefixSums(xs[j..j + SlopePoints]);
    var c := Sum(xs[..j]);
    forall i | 0 <= i < SlopePoints
      ensures full[i] == restarted[i] + c
    {
      RestartedTotal(xs, j, i);
    }
    SlopeShiftInvariant(restarted, full, c);
  }

  /** Features the forecast loop would derive for row t from the six rows before it, set
      against the training columns. Lags, rolling mean, time index and county code equal
      the training row t. The one-period percent change and the growth slope equal those of
      training row t - 1, because training computes them over a window that ends at the
      target row itself. The inference `pct_change_3` is the two-period change of row t - 1,
      since lag3 is only two rows before lag1. */
  lemma InferenceAgainstTraining(xs: seq<real>, countyCode: int, t: nat)
    requires SlopePoints <= t < |xs|
    ensures TrainingRow(xs, countyCode, t).Some? && TrainingRow(xs, countyCode, t - 1).Some?
    ensures
      var f := Derive(Init(xs[..t]), t, countyCode);
      var g := TrainingRow(xs, countyCode, t).value;
      var h := TrainingRow(xs, countyCode, t - 1).value;
      && f.monthsSinceStart == g.monthsSinceStart
      && f.countyCode == g.countyCode
      && f.lag1 == g.lag1 && f.lag2 == g.lag2 && f.lag3 == g.lag3
      && f.rollMean3 == g.rollMean3
      && f.pctChange1 == h.pctChange1
      && f.pctChange3 == PctChangeAt(xs, 2, t - 1)
      && f.growthSlope == h.growthSlope
  {
    TrainingRowKept(xs, countyCode, t);
    TrainingRowKept(xs, countyCode, t - 1);
    PriorRollingMeanIsLagMean(xs, t);
    var w := Init(xs[..t]);
    assert w.values == xs[t - SlopePoints..t];
    var f := Derive(w, t, countyCode);
    assert f.lag1 == xs[t - 1] && f.lag2 == xs[t - 2] && f.lag3 == xs[t - 3];
    PctChangeAtIsGuarded(xs, 1, t - 1);
    PctChangeAtIsGuarded(xs, 2, t - 1);
    SlopeFromWindowValues(w, t, countyCode);
    CumulativeRestartKeepsSlope(xs, t - SlopePoints);
  }
}

=== FILE: window.dfy ===
/** The two trailing buffers the forecast loop keeps per county: `historical_ev`
    (the last six EV counts) and `cumulative_ev` (their running totals). */
module FeatureWindow {
  import opened Series

  /** Capacity of both trailing buffers. */
  const Capacity: nat := 6

  /** `values` holds the trailing counts and `cumulative` the trailing running totals,
      both oldest first. */
  datatype Window = Window(values: seq<real>, cumulative: seq<real>)

  /** The buffers are in step: same length, and each running total exceeds the one
      before it by the count at the same position. */
  ghost predicate Aligned(w: Window)
  {
    && |w.values| == |w.cumulative|
    && forall i {:trigger w.values[i]} :: 1 <= i < |w.values| ==> w.cumulative[i] - w.cumulative[i - 1] == w.values[i]
  }

  /** `w` is the trailing part of the series `s`, whose running totals start at the
      first entry of `s`. */
  ghost predicate Represents(w: Window, s: seq<real>)
  {
    && |s| > 0
    && w.values == LastN(s, Capacity)
    && w.cumulative == LastN(PrefixSums(s), Capacity)
  }

  /** Drops the oldest entry of a buffer that has grown past capacity (`pop(0)`). */
  function Evict(buf: seq<real>): (r: seq<real>)
    ensures |r| == if |buf| > Capacity then |buf| - 1 else |buf|
  {
    if |buf| > Capacity then buf[1..] else buf
  }

  /** Eviction keeps the newest entries in order and trims a buffer one past capacity
      back to the last six. */
  lemma EvictKeepsNewest(buf: seq<real>)
    ensures Evict(buf) == buf[|buf| - |Evict(buf)|..]
    ensures |buf| <= Capacity + 1 ==> Evict(buf) == LastN(buf, Capacity)
  {
  }

  /** `historical_ev = values[-6:]` and `cumulative_ev = np.cumsum(historical_ev)`. */
  function Init(history: seq<real>): (w: Window)
    ensures |w.values| == if |history| < Capacity then |history| else Capacity
    ensures w.values == history[|history| - |w.values|..]
    ensures Aligned(w)
    ensures forall i :: 0 <= i < |w.values| ==> w.cumulative[i] == Sum(w.values[..i + 1])
  {
    var recent := LastN(history, Capacity);
    var w := Window(recent, PrefixSums(recent));
    assert forall i :: 0 <= i < |recent| ==> w.cumulative[i] == Sum(recent[..i + 1]) by {
      forall i | 0 <= i < |recent| {
        PrefixSumsAt(recent, i);
      }
    }
    assert Aligned(w) by {
      forall i | 1 <= i < |recent|
        ensures w.cumulative[i] - w.cumulative[i - 1] == recent[i]
      {
        PrefixSumsStep(recent, i);
      }
    }
    w
  }

  /** Appends a new count to both buffers (the running total grows by that count) and
      evicts the oldest entry of each buffer that overflows. */
  function Push(w: Window, x: real): (r: Window)
    requires |w.cumulative| > 0
    ensures |w.values| <= Capacity ==> |r.values| == if |w.values| < Capacity then |w.values| + 1 else Capacity
    ensures |w.cumulative| <= Capacity ==> |r.cumulative| == if |w.cumulative| < Capacity then |w.cumulative| + 1 else Capacity
  {
    Window(Evict(w.values + [x]), Evict(w.cumulative + [w.cumulative[|w.cumulative| - 1] + x]))
  }

  /** Both buffers behave as bounded FIFO queues: after a push each holds the last six
      entries of the old buffer followed by the new entry, older entries in their old order. */
  lemma PushIsFifo(w: Window, x: real)
    requires 0 < |w.cumulative| <= Capacity
    requires |w.values| <= Capacity
    ensures Push(w, x).values == LastN(w.values + [x], Capacity)
    ensures Push(w, x).cumulative == LastN(w.cumulative + [w.cumulative[|w.cumulative| - 1] + x], Capacity)
  {
    PushValues(w, x);
    PushCumulative(w, x);
  }

  /** Pushing keeps aligned buffers aligned. */
  lemma PushAligned(w: Window, x: real)
    requires |w.cumulative| > 0
    requires Aligned(w) && |w.values| <= Capacity
    ensures Aligned(Push(w, x))
  {
    var r := Push(w, x);
    {
      var v := w.values + [x];
      var c := w.cumulative + [w.cumulative[|w.cumulative| - 1] + x];
      var d := |v| - |r.values|;
      assert d == 0 || d == 1;
      assert r.values == v[d..] && r.cumulative == c[d..];
      forall i | 1 <= i < |r.values|
        ensures r.cumulative[i] - r.cumulative[i - 1] == r.values[i]
      {
        var j := i + d;
        assert r.values[i] == v[j] && r.cumulative[i] == c[j] && r.cumulative[i - 1] == c[j - 1];
        if j < |w.values| {
          assert w.values[j] == v[j];
        }
      }
    }
  }

  /** A window built from history represents exactly the counts it holds. */
  lemma InitRepresents(history: seq<real>)
    requires |history| > 0
    ensures Represents(Init(history), Init(history).values)
  {
  }

  /** Pushing a count keeps the window equal to the trailing part of the extended series. */
  lemma {:induction false} PushRepresents(w: Window, s: seq<real>, x: real)
    requires Represents(w, s)
    ensures Represents(Push(w, x), s + [x])
  {
    PushValues(w, x);
    LastNConcat(s, [x], Capacity);
    PushCumulativeRepresents(w, s, x);
  }

  lemma PushValues(w: Window, x: real)
    requires 0 < |w.cumulative|
    requires |w.values| <= Capacity
    ensures Push(w, x).values == LastN(w.values + [x], Capacity)
  {
  }

  lemma PushCumulativeRepresents(w: Window, s: seq<real>, x: real)
    requires Represents(w, s)
    ensures Push(w, x).cumulative == LastN(PrefixSums(s + [x]), Capacity)
  {
    var ps := PrefixSums(s);
    RepresentedTail(w, s);
    PushCumulative(w, x);
    TrailingTotalsExtend(ps, Sum(s) + x);
    PrefixSumsAppend(s, x);
  }

  /** The newest running total of a represented window is the total of the whole series. */
  lemma RepresentedTail(w: Window, s: seq<real>)
    requires Represents(w, s)
    ensures |w.cumulative| > 0
    ensures w.cumulative[|w.cumulative| - 1] == Sum(s)
  {
    LastNLast(PrefixSums(s), Capacity);
    PrefixSumsAt(s, |s| - 1);
    assert s[..|s|] == s;
  }

  lemma TrailingTotalsExtend(ps: seq<real>, y: real)
    ensures LastN(LastN(ps, Capacity) + [y], Capacity) == LastN(ps + [y], Capacity)
  {
    LastNConcat(ps, [y], Capacity);
  }

  lemma PushCumulative(w: Window, x: real)
    requires 0 < |w.cumulative| <= Capacity
    ensures Push(w, x).cumulative == LastN(w.cumulative + [w.cumulative[|w.cumulative| - 1] + x], Capacity)
  {
  }

  /** A window that represents a series has aligned buffers of at most six entries. */
  lemma {:induction false} RepresentsAligned(w: Window, s: seq<real>)
    requires Represents(w, s)
    ensures Aligned(w)
    ensures |w.values| <= Capacity
  {
    var k := |w.values|;
    var off := |s| - k;
    forall i | 1 <= i < k
      ensures w.cumulative[i] - w.cumulative[i - 1] == w.values[i]
    {
      PrefixSumsStep(s, off + i);
    }
  }
}

=== FILE: wrappers.dfy ===
/** Failure-carrying values used where the script exits, skips or raises. */
module Wrappers {

  /** A value that may be missing, as a pandas cell that may hold NaN. */
  datatype Option<+T> = None | Some(value: T)

  /** Either a computed value or the reason it could not be computed. */
  datatype Result<+R, +E> = Success(value: R) | Failure(error: E)
}
